=== FILE: README.md ===
# lkml-to-mbox, modelled in Dafny

`lkml-to-mbox.py` turns a git repository in the style of the LKML archive into
a single mbox file. Each commit of such a repository holds one message, in the
file `m`. The user checks out the newest message wanted and runs the script
with a count. The script then repeats three steps `count` times:

1. It reads `m` and builds a synthetic mbox separator line,
   `From <address> <date>`, from the message's From and Date headers.
2. It appends that line, the message and a closing line feed to `mbox`.
3. It steps the checkout back one revision with `git checkout -q HEAD^`.

The run stops with an exception as soon as git reports a failure.

The project has six modules, one file each:

| file | module | models |
|---|---|---|
| `wrappers.dfy` | `Wrappers` | `Option` and `Result` |
| `strings.dfy` | `Strings` | first and last occurrence of a character, with their characterising lemmas |
| `address.dfy` | `Address` | the `re.sub` call on line 54, which deletes every match of `.*<` or `>.*`, as Python's regex engine runs it, left to right, with greedy backtracking and with `.` not matching a line feed. It also gives the closed form on one line (`AddressOf`) and the line-by-line behaviour on several lines |
| `envelope.dfy` | `Envelope` | `generate_envelope_from`: the From and Date fallbacks and the separator line. An mbox reader's split of that line is the partner definition for the round trip |
| `mbox.dfy` | `Mbox` | `append_msg_to_mbox`: the block one message adds to the mailbox, or the exception raised instead. A reader's split of a block is its partner |
| `walker.dfy` | `Walker` | the `__main__` block: the argument check, the `int()` conversion, and the loop of appends and steps back. The loop is stated as a recursive function (`Walk`) and written as the program's loop (`Execute`). Lemmas characterise every way a run can end |

Two places where the code's behaviour differs from what a reader of the
script's comments might expect. The model follows the code in both:

- **A Date header that does not parse.** The docstring of
  `generate_envelope_from` says the headers "aren't guaranteed to be present
  and valid, so we'll just use fake ones if they're missing"
  (`lkml-to-mbox.py:34-35`). It names invalid headers as a risk but promises
  fakes only for missing ones, and lines 48-49 and 58-59 supply exactly those.
  A Date text that is present but does not parse gets no fake: `parsedate_tz`
  returns `None` and `mktime_tz(None)` raises (lines 60-61), so the run stops
  with exit status 1. The date library is the parameter `DateRenderer`, and
  `None` from it means "raises".
- **A missing From header.** The comment on line 65 shows the separator line
  `From unknown@example.com Sat Jan  3 12:34:56 1970`, with a bare address.
  The fallback on line 49 is the literal `From: unknown@example.com`, header
  name included. It has no angle brackets, so it survives the substitution
  whole. The separator line therefore reads
  `From From: unknown@example.com <date>`, and an mbox reader takes `From:` for
  the sender (`Envelope.EnvelopeWithoutSender`).

A From header folded over two lines is passed through with its line feed, and
the substitution on line 54 works on each line separately. The name stays on
the first line and the address moves to the second, so the separator line
holds a line feed. An mbox reader then ends the separator after the name and
reads the address and date as the start of the message
(`Envelope.EnvelopeOfFoldedSender`, `Mbox.FoldedSenderBreaksBlock`).

## Model

| member | source | states |
|---|---|---|
| Address.BacktrackToLt | lkml-to-mbox.py:54 | the greedy `.*` of `.*<` giving characters back one at a time: a match ends just after a `<` and is never longer than the line; `BacktrackFindsLastLt` pins it to the last `<` |
| Address.MatchDotStarLt | lkml-to-mbox.py:54 | the `.*<` branch at one position: `.*` first takes the rest of the line, then backtracks. It has no contract of its own; `BacktrackFindsLastLt` pins the match to just after the last `<` of the line |
| Address.MatchGtDotStar | lkml-to-mbox.py:54 | the `>.*` branch at one position: a `>` and the rest of the line, up to the line feed. It has no contract of its own; `StripWithoutLt` and `MatchAtFirstLine` state its effect |
| Address.MatchAt | lkml-to-mbox.py:54 | the alternation `.*<` or `>.*` tried at one position, the left branch first: a match is never empty and never runs past the input; `MatchAtNone` and `MatchAtFirstLine` characterise where it fails and where it stops |
| Address.Strip | lkml-to-mbox.py:54 | the `re.sub` call itself, deleting matches left to right and keeping every other character. It has no contract of its own; it is characterised by `StripOneLine` (against the independent `AddressOf`), `StripLines`, `StripHasNoBrackets` and `StripBare` |
| Address.BacktrackFindsLastLt | lkml-to-mbox.py:54 | the greedy `.*<` gives characters back until it ends just after the last `<` at or before its start, and fails only when there is no `<` there |
| Address.MatchAtNone | lkml-to-mbox.py:54 | where neither `.*<` nor `>.*` matches, the character is not an angle bracket, so the substitution keeps it |
| Address.StripHasNoBrackets | lkml-to-mbox.py:54 | for every input, even over several lines, no `<` or `>` survives the substitution, and the result is no longer than the input |
| Address.StripWithoutLt | lkml-to-mbox.py:54 | on one line without `<`, the result is exactly the text before the first `>` |
| Address.StripOneLine | lkml-to-mbox.py:51-54 | closed form on one line: the result equals `AddressOf`, the text after the last `<` up to the next `>`, or the text before the first `>` when there is no `<` |
| Address.StripIsSegment | lkml-to-mbox.py:51-54 | on one line, the result is a contiguous piece of the From value |
| Address.StripBare | lkml-to-mbox.py:51-54 | a value with no angle brackets is left unchanged, even over several lines |
| Address.AddressOfNamed | lkml-to-mbox.py:51-53 | the closed form reads `Name <addr>rest` as `addr`, when `addr` has no brackets and `rest` opens no new `<` |
| Address.StripNamedAddress | lkml-to-mbox.py:51-54 | a one-line `John Doe <jdoe@example.com>` strips to just the address in the brackets |
| Address.MatchAtFirstLine | lkml-to-mbox.py:54 | the first line of a longer text matches exactly as it would alone, because `.` stops at the line feed |
| Address.StripLineFeed | lkml-to-mbox.py:54 | a leading line feed is never removed |
| Address.StripLines | lkml-to-mbox.py:54 | the substitution works line by line: `Strip(a + "\n" + b) == Strip(a) + "\n" + Strip(b)` for a first line `a` |
| Address.StripFolded | lkml-to-mbox.py:51-54 | a value folded after the name, `name`, line feed, `cont<addr>`, strips to `name`, line feed, `addr`: the line feed survives and the name is kept |
| Envelope.Missing | lkml-to-mbox.py:48 | Python's `not from_line` (line 48) and `not date_line` (line 58) on a header value: absent or empty. It has no contract of its own; `EnvelopeWithoutSender` and `EnvelopeWithoutDate` state what a missing header leads to |
| Envelope.SenderText | lkml-to-mbox.py:47-49 | the From value, or the line 49 fallback when the header is absent or empty. It has no contract of its own; `EnvelopeWithoutSender`, `EnvelopeOfNamedSender` and `EnvelopeOfBareSender` characterise it |
| Envelope.DateText | lkml-to-mbox.py:57-59 | the Date value, or the line 59 fallback when the header is absent or empty. It has no contract of its own; `EnvelopeWithDate` states the present case and `EnvelopeWithoutDate` the missing one |
| Envelope.EnvelopeAddress | lkml-to-mbox.py:54 | `from_address`: the substitution applied to the sender text. It has no contract of its own; `EnvelopeOfNamedSender`, `EnvelopeOfBareSender`, `EnvelopeWithoutSender`, `EnvelopeOfFoldedSender` and `EnvelopeRoundTrip` state what it is for each kind of sender |
| Envelope.EnvelopeLine | lkml-to-mbox.py:56-65 | the separator line exists exactly when the date library accepts the Date text (or the fallback date), and it starts with `From ` |
| Envelope.EnvelopeRoundTrip | lkml-to-mbox.py:65 | a sender without spaces and the rendered date read back from the line as they were put in |
| Envelope.EnvelopeOfNamedSender | lkml-to-mbox.py:47-65 | a one-line `Name <addr>` sender puts exactly `addr` on the line: `From addr <date>` |
| Envelope.EnvelopeOfBareSender | lkml-to-mbox.py:47-54 | a present sender without angle brackets is put on the line unchanged |
| Envelope.FallbackFromIsKept | lkml-to-mbox.py:48-54 | the fallback From text comes through the substitution whole |
| Envelope.EnvelopeWithoutSender | lkml-to-mbox.py:47-65 | with From absent or empty, the line is `From From: unknown@example.com <date>`, and a reader splits off `From:` as the sender |
| Envelope.EnvelopeWithDate | lkml-to-mbox.py:57-65 | with a Date header present and not empty, its value is what the date library receives: the line exists exactly when that value renders, and for a sender without spaces a reader gets the sender and that rendering back |
| Envelope.EnvelopeWithoutDate | lkml-to-mbox.py:57-65 | with Date absent or empty, the date library is asked for `Sat, 3 Jan 1970 12:34:56 -0800`, and the line exists exactly when that succeeds |
| Envelope.EnvelopeIsOneLine | lkml-to-mbox.py:54-65 | a one-line From value and a one-line date give a separator line with no line feed |
| Envelope.EnvelopeOfFoldedSender | lkml-to-mbox.py:47-65 | a From header folded after the name puts the name and the address on two lines, so the separator line is `From name`, line feed, `addr <date>` |
| Envelope.EnvelopeExample | lkml-to-mbox.py:52-65 | the examples in the comments: the sender `John Doe <jdoe@example.com>` of line 52, dated `Sat, 3 Jan 1970 12:34:56 -0800` (line 57) and rendered `Sat Jan  3 12:34:56 1970` (line 63), gives `From jdoe@example.com Sat Jan  3 12:34:56 1970` |
| Mbox.Block | lkml-to-mbox.py:85-87 | the three writes: separator line, line feed, message text, line feed. It has no contract of its own; `BlockRoundTrip` is its inverse |
| Mbox.Entry | lkml-to-mbox.py:78-87 | a message file yields its block exactly when it can be opened and its date is accepted |
| Mbox.AppendMessage | lkml-to-mbox.py:68-87 | the append succeeds exactly when the file can be opened and its date is accepted. A failure is `Unreadable` for a file that cannot be opened and `UnparsableDate` otherwise, and then the mailbox is left as it was. A success keeps the old mailbox as a strict prefix and adds exactly the message's block |
| Mbox.BlockRoundTrip | lkml-to-mbox.py:84-87 | a block written as line, line feed, text, line feed reads back as that line and that text when the line is one line |
| Mbox.AppendedBlockLayout | lkml-to-mbox.py:81-87 | for every message whose date renders, an append adds `envelope + "\n" + message + "\n"` after the old mailbox, whatever the separator line holds |
| Mbox.AppendedBlockReadsBack | lkml-to-mbox.py:81-87 | when the separator line is one line, what an append added reads back as that line and the message |
| Mbox.SplitBrokenBlock | lkml-to-mbox.py:85-87 | a separator line holding a line feed breaks its block: a reader's separator ends at that line feed and the rest is taken for the message |
| Mbox.FoldedSenderBreaksBlock | lkml-to-mbox.py:47-87 | for a From header folded after the name, a reader's separator is `From name`, and the address and date are read as the start of the message |
| Walker.StepBack | lkml-to-mbox.py:108-110 | `git checkout -q HEAD^`: the parent revision, failing only at the oldest. It has no contract of its own; `WalkGitFailed` and `WalkExhausts` state where a run fails at it |
| Walker.ExitStatus | lkml-to-mbox.py:89-110 | 0 for a run that finishes, 1 for the usage exit on line 99 and for every uncaught exception. It has no contract of its own; `Invoke`, `InvokeCompletes` and `InvokeRunsOutOfHistory` state it for each way a run ends |
| Walker.Walk | lkml-to-mbox.py:103-110 | the loop never moves past the oldest revision, only ever appends to the mailbox, and ends by finishing, by an exception from the append, or by a failed step back |
| Walker.WalkFinished | lkml-to-mbox.py:103-110 | a run that finishes has stepped back `count` revisions, none when `count <= 0`, and appended their blocks in visiting order |
| Walker.WalkRaised | lkml-to-mbox.py:103-110 | a run stopped by an append that raises stands on the failing revision. It has written the blocks of the revisions before it, in order, and nothing for the failing one |
| Walker.WalkGitFailed | lkml-to-mbox.py:103-110 | a run stopped by a failed step back stands on the oldest revision, and has written the block of every revision from the start to that one, that one included |
| Walker.WalkCompletes | lkml-to-mbox.py:103-110 | conversely, when the next `count` revisions all append and each has a parent, the run finishes with exactly their blocks, in order |
| Walker.WalkExhausts | lkml-to-mbox.py:103-110 | conversely, when the loop wants more revisions than remain and all of them append, the run writes them all and fails stepping back from the oldest |
| Walker.WalkExhaustsHistory | lkml-to-mbox.py:103-110 | `WalkExhausts` for a whole run from the starting checkout |
| Walker.WalkStopsAtFault | lkml-to-mbox.py:103-110 | conversely, the first revision whose append raises stops the run there, after the blocks of the revisions before it |
| Walker.ProgramAppendSucceeds | lkml-to-mbox.py:105 | the program's append step succeeds on a run of files exactly when every one of them is appendable |
| Walker.ProgramAppend | lkml-to-mbox.py:105 | the call `append_msg_to_mbox('m', 'mbox')`: `Mbox.Entry` on the checked-out message file. It has no contract of its own; `ProgramAppendSucceeds` states when it succeeds and `InvokeWalks` that the program runs the loop over it |
| Walker.Invoke | lkml-to-mbox.py:89-110 | the run stops at the usage check exactly when the argument count is not 2. It then exits 1 and leaves the mailbox and the checkout alone. Every run keeps the old mailbox as a prefix |
| Walker.InvokeWalks | lkml-to-mbox.py:101-105 | with two arguments and a count that converts, the program is the loop over `append_msg_to_mbox` |
| Walker.InvokeBadCount | lkml-to-mbox.py:101 | a count argument that `int()` rejects raises before the loop: exit 1, mailbox and checkout untouched |
| Walker.InvokeCompletes | lkml-to-mbox.py:101-110 | a count within the history, over messages that all append, exits 0 with one block per iteration, newest first. A count of zero or less changes nothing |
| Walker.InvokeRunsOutOfHistory | lkml-to-mbox.py:101-110 | a count past the oldest revision, over messages that all append, writes every revision's block and exits 1 in the iteration of the oldest revision. Failing in iteration `i` leaves `i + 1` blocks |
| Walker.Execute | lkml-to-mbox.py:89-110 | the program's own loop, with early exits, computes exactly `Invoke` |

## Left out

- Date parsing and rendering (`parsedate_tz`, `mktime_tz`, `fromtimestamp`, `ctime`) depend on the host's time zone and clock library. They are the parameter `DateRenderer`, which returns the rendering or `None` where the library raises.
- Email parsing and serialisation (`message_from_file`, `msg.get`, `as_string`) are not modelled. A message is its From and Date header values, as `msg.get` returns them, plus its serialised text. Header values may hold line feeds, so a folded From header is covered, but how `msg.get` unfolds a header is not modelled, nor are encoded words and repeated headers.
- File I/O is not modelled. The mailbox is its contents as a string. The message file is what it holds at each revision, or `None` when it cannot be opened. Decoding with `errors='ignore'` is not represented, and a failure to open or write the mailbox file itself is not modelled.
- The `git` subprocess is the history of message files plus `StepBack`, which fails only at the last revision of the history. A git failure at any other revision (a dirty tree, not a repository) is covered by reading the history as ending at that revision, since the run stops at the first failure either way; "the oldest revision" in `WalkGitFailed` and `InvokeRunsOutOfHistory` means that last revision.
- The progress indicator on line 104 and the usage text on lines 91-98 are standard output only. They are not modelled.
- `int()` on the count argument is the parameter `parseCount`, which returns `None` where `int()` raises.
- Address.StripOneLine: the closed form is stated for one-line From values. For several lines the model relies on `Address.StripLines`, which reduces them to one line at a time.
- Mbox.SplitBlock is told where the block ends, but a real mbox reader finds message boundaries at lines that start with `From `. `msg.as_string()` on line 86 does not escape such lines in the body, so a body line starting with `From ` splits the message for a reader. The model does not state this.
- Envelope.EnvelopeIsOneLine: covers one-line senders only. A folded sender gives a two-line separator, stated by `Envelope.EnvelopeOfFoldedSender`.
- Envelope.EnvelopeWithoutDate: follows from the definitions with no proof work.
- Walker.InvokeWalks: follows from the definitions with no proof work.
- Walker.InvokeBadCount: follows from the definitions with no proof work.

=== FILE: address.dfy ===
/**
 * The sender-address stripping of lkml-to-mbox.py: `re.sub(r'.*<|>.*', '', v)`
 * applied to the From header value `v`.
 *
 * The substitution is simulated the way Python's regular-expression engine
 * runs it: scan left to right; at each position try the alternation, the left
 * branch first; delete a match and resume after it, otherwise keep the
 * character and move on. `.` matches anything but a line feed, and `.*` is
 * greedy, so `.*<` reaches to the LAST `<` of the current line. Neither branch
 * can match the empty string, so there is no empty-match rule to model.
 */
module Address {
  import opened Wrappers
  import opened Strings

  /** The `.*<` branch at the start of `s` while `.*` holds `s[..j]`: the
      greedy star gives back one character at a time until a `<` follows.
      The result is the length of the match (see `BacktrackFindsLastLt`). */
  function BacktrackToLt(s: string, j: nat): (r: Option<nat>)
    requires j <= |s|
    ensures r.Some? ==> 1 <= r.value <= j + 1 && r.value <= |s| && s[r.value - 1] == '<'
    decreases j
  {
    if j < |s| && s[j] == '<' then Some(j + 1)
    else if j == 0 then None
    else BacktrackToLt(s, j - 1)
  }

  /** Backtracking stops at the last `<` at or before `j`, and fails only when there is none. */
  lemma {:induction false} BacktrackFindsLastLt(s: string, j: nat)
    requires j <= |s|
    ensures var r := BacktrackToLt(s, j);
            r.Some? ==> forall k :: r.value <= k <= j && k < |s| ==> s[k] != '<'
    ensures var r := BacktrackToLt(s, j);
            r.None? ==> forall k :: 0 <= k <= j && k < |s| ==> s[k] != '<'
    decreases j
  {
    if !(j < |s| && s[j] == '<') && j > 0 {
      BacktrackFindsLastLt(s, j - 1);
    }
  }

  /** The `.*<` branch: `.*` first takes the whole line, then backtracks. */
  function MatchDotStarLt(s: string): Option<nat>
  {
    BacktrackToLt(s, IndexOf(s, '\n'))
  }

  /** The `>.*` branch: a `>` and then the rest of the line. */
  function MatchGtDotStar(s: string): Option<nat>
  {
    if s != [] && s[0] == '>' then Some(1 + IndexOf(s[1..], '\n')) else None
  }

  /** The alternation `.*<|>.*` tried at the start of `s`: the length of the
      match, the left branch winning when both could match. */
  function MatchAt(s: string): (r: Option<nat>)
    ensures r.Some? ==> 1 <= r.value <= |s|
  {
    var left := MatchDotStarLt(s);
    if left.Some? then left else MatchGtDotStar(s)
  }

  /** Where nothing matches, the first character is not a bracket. */
  lemma MatchAtNone(s: string)
    requires s != [] && MatchAt(s).None?
    ensures s[0] != '<' && s[0] != '>'
  {
    BacktrackFindsLastLt(s, IndexOf(s, '\n'));
  }

  /** `re.sub(r'.*<|>.*', '', s)`. */
  function Strip(s: string): string
    decreases |s|
  {
    if s == [] then []
    else match MatchAt(s)
      case Some(m) => Strip(s[m..])
      case None => [s[0]] + Strip(s[1..])
  }

  /** Whatever the input, even over several lines, no angle bracket survives
      the substitution, and nothing is added. */
  lemma {:induction false} StripHasNoBrackets(s: string)
    ensures '<' !in Strip(s) && '>' !in Strip(s)
    ensures |Strip(s)| <= |s|
    decreases |s|
  {
    if s != [] {
      match MatchAt(s)
      case Some(m) =>
        StripHasNoBrackets(s[m..]);
      case None =>
        MatchAtNone(s);
        StripHasNoBrackets(s[1..]);
    }
  }

  /** Where the address begins in a one-line From value: just after the last `<`, or at the start. */
  function AddressStart(s: string): (k: nat)
    ensures k <= |s|
  {
    match LastIndexOf(s, '<')
    case Some(i) => i + 1
    case None => 0
  }

  /** The address a reader sees in a one-line From value: the text after
      the last `<` up to the next `>` (or the end); with no `<`, the text
      before the first `>`. */
  function AddressOf(s: string): string
  {
    var rest := s[AddressStart(s)..];
    rest[..IndexOf(rest, '>')]
  }

  /** On one line with no `<`, the substitution keeps what precedes the first `>`. */
  lemma {:induction false} StripWithoutLt(s: string)
    requires '\n' !in s && '<' !in s
    ensures Strip(s) == s[..IndexOf(s, '>')]
    decreases |s|
  {
    if s != [] {
      IndexOfAbsent(s, '\n');
      assert MatchDotStarLt(s) == None;
      if s[0] == '>' {
        assert '\n' !in s[1..];
        IndexOfAbsent(s[1..], '\n');
        assert MatchAt(s) == Some(|s|);
        assert s[|s|..] == [];
      } else {
        assert MatchAt(s) == None;
        assert '\n' !in s[1..] && '<' !in s[1..];
        StripWithoutLt(s[1..]);
        assert s[..IndexOf(s, '>')] == [s[0]] + s[1..][..IndexOf(s[1..], '>')];
      }
    }
  }

  /** Closed form: on a one-line value the substitution yields `AddressOf`. */
  lemma StripOneLine(s: string)
    requires '\n' !in s
    ensures Strip(s) == AddressOf(s)
  {
    LastIndexOfLast(s, '<');
    match LastIndexOf(s, '<')
    case None =>
      assert s[0..] == s;
      StripWithoutLt(s);
    case Some(i) =>
      IndexOfAbsent(s, '\n');
      BacktrackFindsLastLt(s, |s|);
      assert s[i] == '<';
      assert MatchAt(s) == Some(i + 1);
      var t := s[i + 1..];
      assert forall k :: 0 <= k < |t| ==> t[k] == s[i + 1 + k];
      assert '<' !in t && '\n' !in t;
      StripWithoutLt(t);
  }

  /** On one line the result is a contiguous piece of the input. */
  lemma StripIsSegment(s: string)
    requires '\n' !in s
    ensures exists i, j :: 0 <= i <= j <= |s| && Strip(s) == s[i..j]
  {
    StripOneLine(s);
    var start := AddressStart(s);
    var rest := s[start..];
    var k := IndexOf(rest, '>');
    assert k <= |rest| == |s| - start;
    assert rest[..k] == s[start..start + k];
    assert 0 <= start <= start + k <= |s| && Strip(s) == s[start..start + k];
  }

  /** A value with no angle brackets passes through unchanged, even over several lines. */
  lemma {:induction false} StripBare(s: string)
    requires '<' !in s && '>' !in s
    ensures Strip(s) == s
    decreases |s|
  {
    if s != [] {
      assert MatchAt(s) == None;
      assert '<' !in s[1..] && '>' !in s[1..];
      StripBare(s[1..]);
      assert s == [s[0]] + s[1..];
    }
  }

  /** The reference reading of `Name <addr>rest`: the address between the brackets. */
  lemma AddressOfNamed(name: string, addr: string, rest: string)
    requires '<' !in addr && '>' !in addr && '<' !in rest
    ensures AddressOf(name + "<" + addr + ">" + rest) == addr
  {
    var s := name + "<" + addr + ">" + rest;
    var n := |name|;
    var t := s[n + 1..];
    assert t == addr + ">" + rest;
    assert s[n] == '<';
    LastIndexOfIs(s, '<', n);
    assert t[..|addr|] == addr;
    IndexOfIs(t, '>', |addr|);
  }

  lemma NamedIsOneLine(name: string, addr: string, rest: string)
    requires '\n' !in name && '\n' !in addr && '\n' !in rest
    ensures '\n' !in name + "<" + addr + ">" + rest
  {
  }

  /** `Name <addr>`, on one line and with no bracket inside `addr`, strips to `addr`;
      text after the `>` is dropped as long as it opens no new `<`. */
  lemma StripNamedAddress(name: string, addr: string, rest: string)
    requires '\n' !in name && '\n' !in addr && '\n' !in rest
    requires '<' !in addr && '>' !in addr && '<' !in rest
    ensures Strip(name + "<" + addr + ">" + rest) == addr
  {
    var s := name + "<" + addr + ">" + rest;
    NamedIsOneLine(name, addr, rest);
    StripOneLine(s);
    AddressOfNamed(name, addr, rest);
  }

  /** Equal prefixes give equal backtracking, as long as the longer string has no `<` just past the prefix. */
  lemma {:induction false} BacktrackOnPrefix(a: string, s: string, j: nat)
    requires |a| <= |s| && s[..|a|] == a && j <= |a|
    requires |a| < |s| ==> s[|a|] != '<'
    ensures BacktrackToLt(s, j) == BacktrackToLt(a, j)
    decreases j
  {
    if j < |a| {
      assert s[j] == a[j];
    }
    if j > 0 {
      BacktrackOnPrefix(a, s, j - 1);
    }
  }

  /** The first line of a string that continues past a line feed matches exactly as it would alone. */
  lemma MatchAtFirstLine(a: string, b: string)
    requires '\n' !in a && a != []
    ensures MatchAt(a + "\n" + b) == MatchAt(a)
  {
    var s := a + "\n" + b;
    assert s[..|a|] == a;
    IndexOfIs(s, '\n', |a|);
    IndexOfAbsent(a, '\n');
    BacktrackOnPrefix(a, s, |a|);
    var t := s[1..];
    assert t[..|a| - 1] == a[1..];
    assert t[|a| - 1] == '\n';
    IndexOfIs(t, '\n', |a| - 1);
    IndexOfAbsent(a[1..], '\n');
  }

  /** A line feed at the front is kept, and the rest is stripped on its own. */
  lemma StripLineFeed(b: string)
    ensures Strip("\n" + b) == "\n" + Strip(b)
  {
    var s := "\n" + b;
    assert MatchDotStarLt(s) == None;
    assert MatchAt(s) == None;
    assert s[1..] == b;
  }

  /** A first line that opens with a match of length `m` loses those characters
      whatever follows it. */
  lemma StripDropHead(a: string, b: string, m: nat)
    requires '\n' !in a && a != [] && MatchAt(a) == Some(m)
    ensures Strip(a + "\n" + b) == Strip(a[m..] + "\n" + b)
  {
    var s := a + "\n" + b;
    MatchAtFirstLine(a, b);
    assert s[m..] == a[m..] + "\n" + b;
  }

  /** A first line whose first character matches nothing keeps that character
      whatever follows it. */
  lemma StripKeepHead(a: string, b: string)
    requires '\n' !in a && a != [] && MatchAt(a) == None
    ensures Strip(a + "\n" + b) == [a[0]] + Strip(a[1..] + "\n" + b)
  {
    var s := a + "\n" + b;
    MatchAtFirstLine(a, b);
    assert s[1..] == a[1..] + "\n" + b;
  }

  lemma ConsLines(c: char, x: string, y: string)
    ensures [c] + (x + "\n" + y) == ([c] + x) + "\n" + y
  {
  }

  /** The substitution works line by line: a line feed is never consumed, and
      the lines on either side of it are stripped independently. */
  lemma {:induction false} StripLines(a: string, b: string)
    requires '\n' !in a
    ensures Strip(a + "\n" + b) == Strip(a) + "\n" + Strip(b)
    decreases |a|
  {
    if a == [] {
      assert a + "\n" + b == "\n" + b;
      StripLineFeed(b);
    } else {
      match MatchAt(a)
      case Some(m) =>
        assert '\n' !in a[m..];
        StripLines(a[m..], b);
        StripDropHead(a, b, m);
      case None =>
        assert '\n' !in a[1..];
        StripLines(a[1..], b);
        StripKeepHead(a, b);
        ConsLines(a[0], Strip(a[1..]), Strip(b));
    }
  }

  /** A value folded after the name, `name` line feed `cont<addr>`, keeps the
      name on the first line and the bare address on the second. */
  lemma StripFolded(name: string, cont: string, addr: string)
    requires '\n' !in name && '<' !in name && '>' !in name
    requires '\n' !in cont && '\n' !in addr && '<' !in addr && '>' !in addr
    ensures Strip(name + "\n" + cont + "<" + addr + ">") == name + "\n" + addr
  {
    var second := cont + "<" + addr + ">" + "";
    assert name + "\n" + cont + "<" + addr + ">" == name + "\n" + second;
    StripLines(name, second);
    StripBare(name);
    StripNamedAddress(cont, addr, "");
  }
}

=== FILE: envelope.dfy ===
/**
 * `generate_envelope_from` of lkml-to-mbox.py: the synthetic mbox separator
 * line `From <address> <date>` built from a message's From and Date headers.
 *
 * Date parsing and rendering (`parsedate_tz`, `mktime_tz`, `ctime`) depend on
 * the host's time zone and are a parameter here: a `DateRenderer` maps the
 * Date text to its ctime rendering, or to `None` where the library raises.
 */
module Envelope {
  import opened Wrappers
  import opened Strings
  import Address

  /** A parsed message: the From and Date header values as `msg.get` returns
      them (`None` when the header is absent) and the message serialised back
      to text by `msg.as_string()`. */
  datatype Message = Message(fromHeader: Option<string>, dateHeader: Option<string>, text: string)

  /** The date library: ctime rendering of a Date text, or `None` when parsing fails and the call raises. */
  type DateRenderer = string -> Option<string>

  /** Stands in for a missing From header: "From: unknown@example.com", header
      name included. Written as a concatenation so that the verifier does not
      run the substitution on it character by character. */
  const FallbackFrom: string := "From:" + " " + "unknown@example.com"

  /** Stands in for a missing Date header. */
  const FallbackDate: string := "Sat, 3 Jan 1970 12:34:56 -0800"

  /** Python's `not value` on a header: absent, or present but empty. */
  predicate Missing(h: Option<string>)
  {
    h.None? || h.value == ""
  }

  /** The text the address is stripped from. */
  function SenderText(m: Message): string
  {
    if Missing(m.fromHeader) then FallbackFrom else m.fromHeader.value
  }

  /** The text handed to the date library. */
  function DateText(m: Message): string
  {
    if Missing(m.dateHeader) then FallbackDate else m.dateHeader.value
  }

  /** The envelope sender: the sender text with `.*<` and `>.*` removed. */
  function EnvelopeAddress(m: Message): string
  {
    Address.Strip(SenderText(m))
  }

  /** The separator line, without its line feed; `None` when the date library raises. */
  function EnvelopeLine(m: Message, render: DateRenderer): (r: Option<string>)
    ensures r.Some? <==> render(DateText(m)).Some?
    ensures r.Some? ==> |r.value| > 5 && r.value[..5] == "From "
  {
    match render(DateText(m))
    case None => None
    case Some(date) => Some("From " + EnvelopeAddress(m) + " " + date)
  }

  /** How an mbox reader splits a separator line: after "From " comes the
      sender, up to the first space, and then the date. */
  function SplitEnvelope(line: string): Option<(string, string)>
  {
    if |line| < 5 || line[..5] != "From " then None
    else
      var rest := line[5..];
      var k := IndexOf(rest, ' ');
      if k == |rest| then None else Some((rest[..k], rest[k + 1..]))
  }

  /** The text after "From " on a separator line. */
  lemma AfterFrom(a: string, d: string)
    ensures var line := "From " + a + " " + d;
            |line| >= 5 && line[..5] == "From " && line[5..] == a + " " + d
  {
  }

  /** A reader splits a line whose sender has no space right after the sender. */
  lemma SplitEnvelopeBare(a: string, d: string)
    requires ' ' !in a
    ensures SplitEnvelope("From " + a + " " + d) == Some((a, d))
  {
    AfterFrom(a, d);
    var rest := a + " " + d;
    assert rest[..|a|] == a;
    IndexOfIs(rest, ' ', |a|);
    assert rest[|a| + 1..] == d;
  }

  /** A reader splits a line whose sender holds a space at that first space. */
  lemma SplitEnvelopeSpaced(x: string, y: string, d: string)
    requires ' ' !in x
    ensures SplitEnvelope("From " + (x + " " + y) + " " + d) == Some((x, y + " " + d))
  {
    var a := x + " " + y;
    AfterFrom(a, d);
    var rest := a + " " + d;
    assert rest == x + " " + (y + " " + d);
    assert rest[..|x|] == x;
    IndexOfIs(rest, ' ', |x|);
    assert rest[|x| + 1..] == y + " " + d;
  }

  /** A sender without spaces reads back from the line as it was put in, and so does the date. */
  lemma EnvelopeRoundTrip(m: Message, render: DateRenderer)
    requires render(DateText(m)).Some?
    requires ' ' !in EnvelopeAddress(m)
    ensures SplitEnvelope(EnvelopeLine(m, render).value)
            == Some((EnvelopeAddress(m), render(DateText(m)).value))
  {
    SplitEnvelopeBare(EnvelopeAddress(m), render(DateText(m)).value);
  }

  /** A one-line `Name <addr>` sender puts exactly `addr` on the line. */
  lemma EnvelopeOfNamedSender(m: Message, render: DateRenderer, name: string, addr: string, rest: string)
    requires m.fromHeader == Some(name + "<" + addr + ">" + rest)
    requires '\n' !in name && '\n' !in addr && '\n' !in rest
    requires '<' !in addr && '>' !in addr && '<' !in rest
    requires render(DateText(m)).Some?
    ensures EnvelopeAddress(m) == addr
    ensures EnvelopeLine(m, render) == Some("From " + addr + " " + render(DateText(m)).value)
  {
    assert (name + "<" + addr + ">" + rest)[|name|] == '<';
    Address.StripNamedAddress(name, addr, rest);
  }

  /** A sender with no angle brackets is put on the line unchanged. */
  lemma EnvelopeOfBareSender(m: Message, render: DateRenderer)
    requires m.fromHeader.Some? && m.fromHeader.value != ""
    requires '<' !in m.fromHeader.value && '>' !in m.fromHeader.value
    ensures EnvelopeAddress(m) == m.fromHeader.value
  {
    Address.StripBare(m.fromHeader.value);
  }

  /** The fallback text is "From:", a space, and the address, with no angle brackets,
      so it survives the stripping whole. */
  lemma FallbackFromIsKept()
    ensures Address.Strip(FallbackFrom) == FallbackFrom
  {
    assert '<' !in FallbackFrom && '>' !in FallbackFrom;
    Address.StripBare(FallbackFrom);
  }

  /** Without a From header the line carries the whole fallback text,
      "From: unknown@example.com", and an mbox reader takes "From:" for the sender. */
  lemma EnvelopeWithoutSender(m: Message, render: DateRenderer)
    requires Missing(m.fromHeader)
    requires render(DateText(m)).Some?
    ensures EnvelopeAddress(m) == FallbackFrom
    ensures EnvelopeLine(m, render) == Some("From " + FallbackFrom + " " + render(DateText(m)).value)
    ensures SplitEnvelope(EnvelopeLine(m, render).value)
            == Some(("From:", "unknown@example.com" + " " + render(DateText(m)).value))
  {
    FallbackFromIsKept();
    assert ' ' !in "From:";
    SplitEnvelopeSpaced("From:", "unknown@example.com", render(DateText(m)).value);
  }

  /** Without a Date header the date library is asked for the fallback date. */
  lemma EnvelopeWithoutDate(m: Message, render: DateRenderer)
    requires Missing(m.dateHeader)
    ensures EnvelopeLine(m, render).Some? <==> render(FallbackDate).Some?
    ensures render(FallbackDate).Some? ==>
              EnvelopeLine(m, render) == Some("From " + EnvelopeAddress(m) + " " + render(FallbackDate).value)
  {
  }

  /** With a Date header present and not empty, its value is what the date
      library is given: the line exists exactly when that value renders, and
      a reader gets its rendering back from the line. */
  lemma EnvelopeWithDate(m: Message, render: DateRenderer)
    requires m.dateHeader.Some? && m.dateHeader.value != ""
    ensures EnvelopeLine(m, render).Some? <==> render(m.dateHeader.value).Some?
    ensures render(m.dateHeader.value).Some? && ' ' !in EnvelopeAddress(m) ==>
              SplitEnvelope(EnvelopeLine(m, render).value)
              == Some((EnvelopeAddress(m), render(m.dateHeader.value).value))
  {
    if render(m.dateHeader.value).Some? && ' ' !in EnvelopeAddress(m) {
      EnvelopeRoundTrip(m, render);
    }
  }

  /** A From header on one line and a one-line date give a one-line separator. */
  lemma EnvelopeIsOneLine(m: Message, render: DateRenderer)
    requires '\n' !in SenderText(m)
    requires render(DateText(m)).Some? && '\n' !in render(DateText(m)).value
    ensures '\n' !in EnvelopeLine(m, render).value
  {
    var s := SenderText(m);
    Address.StripIsSegment(s);
    var i, j :| 0 <= i <= j <= |s| && Address.Strip(s) == s[i..j];
    assert forall k :: 0 <= k < j - i ==> s[i..j][k] == s[i + k];
    assert '\n' !in EnvelopeAddress(m);
  }

  /** A folded From header, whose value `msg.get` hands back with its line
      feed and continuation, is stripped line by line: the name stays on the
      first line, the address lands on the second, and the separator line
      is split over two lines. */
  lemma EnvelopeOfFoldedSender(m: Message, render: DateRenderer, name: string, cont: string, addr: string)
    requires m.fromHeader == Some(name + "\n" + cont + "<" + addr + ">")
    requires '\n' !in name && '<' !in name && '>' !in name
    requires '\n' !in cont && '\n' !in addr && '<' !in addr && '>' !in addr
    requires render(DateText(m)).Some?
    ensures EnvelopeAddress(m) == name + "\n" + addr
    ensures EnvelopeLine(m, render) == Some("From " + name + "\n" + addr + " " + render(DateText(m)).value)
  {
    assert SenderText(m) == name + "\n" + cont + "<" + addr + ">";
    Address.StripFolded(name, cont, addr);
    var date := render(DateText(m)).value;
    assert "From " + (name + "\n" + addr) + " " + date == "From " + name + "\n" + addr + " " + date;
  }

  /** The example in the comments of `generate_envelope_from`: the sender
      `John Doe <jdoe@example.com>`, dated `Sat, 3 Jan 1970 12:34:56 -0800`
      and rendered `Sat Jan  3 12:34:56 1970`, gives the line
      `From jdoe@example.com Sat Jan  3 12:34:56 1970`. The strings are
      written in their parts so that the verifier reasons about the parts. */
  lemma EnvelopeExample(render: DateRenderer, text: string)
    requires render(FallbackDate) == Some("Sat Jan  3 12:34:56 1970")
    ensures EnvelopeLine(Message(Some("John Doe " + "<" + "jdoe@example.com" + ">"), Some(FallbackDate), text), render)
            == Some("From " + "jdoe@example.com" + " " + "Sat Jan  3 12:34:56 1970")
  {
    var m := Message(Some("John Doe " + "<" + "jdoe@example.com" + ">"), Some(FallbackDate), text);
    assert "John Doe " + "<" + "jdoe@example.com" + ">" == "John Doe " + "<" + "jdoe@example.com" + ">" + "";
    assert '<' !in "jdoe@example.com" && '>' !in "jdoe@example.com" && '\n' !in "jdoe@example.com";
    assert '\n' !in "John Doe ";
    EnvelopeOfNamedSender(m, render, "John Doe ", "jdoe@example.com", "");
  }
}

=== FILE: mbox.dfy ===
/**
 * `append_msg_to_mbox` of lkml-to-mbox.py: read the message file, build its
 * separator line, and append separator, line feed, message text and a closing
 * line feed to the mailbox.
 *
 * The mailbox file is its contents, a string. Opening the message file is
 * its content at the current checkout, `None` when it cannot be opened.
 * Both ways the step can raise happen before the mailbox is opened, so a
 * failed step leaves the mailbox as it was.
 */
module Mbox {
  import opened Wrappers
  import opened Strings
  import opened Envelope

  /** Why an append raises: the message file cannot be opened, or the date library rejects the Date text. */
  datatype Fault = Unreadable | UnparsableDate

  /** What one append writes: the separator line, the message, and a line feed after each. */
  function Block(line: string, text: string): string
  {
    line + "\n" + text + "\n"
  }

  /** The message file can be opened and the date library accepts its Date text. */
  predicate Appendable(file: Option<Message>, render: DateRenderer)
  {
    file.Some? && render(DateText(file.value)).Some?
  }

  /** The block a revision's message file contributes, or why it cannot. */
  function Entry(file: Option<Message>, render: DateRenderer): (r: Result<string, Fault>)
    ensures r.Success? <==> Appendable(file, render)
  {
    match file
    case None => Failure(Unreadable)
    case Some(m) =>
      match EnvelopeLine(m, render)
      case None => Failure(UnparsableDate)
      case Some(line) => Success(Block(line, m.text))
  }

  /** One call of `append_msg_to_mbox`: the mailbox after the append, or the fault it raised. */
  function AppendMessage(mbox: string, file: Option<Message>, render: DateRenderer): (r: Result<string, Fault>)
    ensures r.Success? <==> Appendable(file, render)
    ensures r.Failure? ==> r.error == (if file.None? then Unreadable else UnparsableDate)
    ensures r.Success? ==> |mbox| < |r.value| && r.value[..|mbox|] == mbox
    ensures r.Success? ==> r.value[|mbox|..] == Entry(file, render).value
  {
    match Entry(file, render)
    case Failure(e) => Failure(e)
    case Success(block) => Success(mbox + block)
  }

  /** How a reader takes one block apart: the separator line up to the first
      line feed, then the message up to the closing line feed. */
  function SplitBlock(b: string): Option<(string, string)>
  {
    var k := IndexOf(b, '\n');
    if k + 1 >= |b| || b[|b| - 1] != '\n' then None
    else Some((b[..k], b[k + 1..|b| - 1]))
  }

  /** A block reads back as the separator line and message that made it, when the line is one line. */
  lemma BlockRoundTrip(line: string, text: string)
    requires '\n' !in line
    ensures SplitBlock(Block(line, text)) == Some((line, text))
  {
    var b := Block(line, text);
    assert b[..|line|] == line;
    IndexOfIs(b, '\n', |line|);
    assert b[|line| + 1..|b| - 1] == text;
  }

  /** What an append adds is the separator line, a line feed, the message
      text and a line feed, whatever the separator line holds. */
  lemma AppendedBlockLayout(mbox: string, m: Message, render: DateRenderer)
    requires render(DateText(m)).Some?
    ensures AppendMessage(mbox, Some(m), render).Success?
    ensures AppendMessage(mbox, Some(m), render).value
            == mbox + EnvelopeLine(m, render).value + "\n" + m.text + "\n"
  {
    var line := EnvelopeLine(m, render).value;
    assert AppendMessage(mbox, Some(m), render) == Success(mbox + Block(line, m.text));
    assert mbox + Block(line, m.text) == mbox + line + "\n" + m.text + "\n";
  }

  /** When the separator line is one line, what an append adds reads back
      as that line and the message text. */
  lemma AppendedBlockReadsBack(mbox: string, m: Message, render: DateRenderer)
    requires render(DateText(m)).Some?
    requires '\n' !in EnvelopeLine(m, render).value
    ensures AppendMessage(mbox, Some(m), render).Success?
    ensures SplitBlock(AppendMessage(mbox, Some(m), render).value[|mbox|..])
            == Some((EnvelopeLine(m, render).value, m.text))
  {
    var line := EnvelopeLine(m, render).value;
    var r := AppendMessage(mbox, Some(m), render);
    assert r == Success(mbox + Block(line, m.text));
    assert r.value[|mbox|..] == Block(line, m.text);
    BlockRoundTrip(line, m.text);
  }

  /** A separator line holding a line feed breaks its block: a reader's
      separator ends at that line feed, and the rest is taken for the start
      of the message. */
  lemma SplitBrokenBlock(head: string, tail: string, text: string)
    requires '\n' !in head
    ensures SplitBlock(Block(head + "\n" + tail, text)) == Some((head, tail + "\n" + text))
  {
    var b := Block(head + "\n" + tail, text);
    assert b == head + "\n" + (tail + "\n" + text + "\n");
    assert b[..|head|] == head;
    IndexOfIs(b, '\n', |head|);
    assert b[|head| + 1..|b| - 1] == tail + "\n" + text;
  }

  /** A folded From header breaks the block: a reader's separator line ends
      after the sender's name, and the address and date are taken for the
      start of the message. */
  lemma FoldedSenderBreaksBlock(mbox: string, m: Message, render: DateRenderer,
                                name: string, cont: string, addr: string)
    requires m.fromHeader == Some(name + "\n" + cont + "<" + addr + ">")
    requires '\n' !in name && '<' !in name && '>' !in name
    requires '\n' !in cont && '\n' !in addr && '<' !in addr && '>' !in addr
    requires render(DateText(m)).Some?
    ensures AppendMessage(mbox, Some(m), render).Success?
    ensures SplitBlock(AppendMessage(mbox, Some(m), render).value[|mbox|..])
            == Some(("From " + name, addr + " " + render(DateText(m)).value + "\n" + m.text))
  {
    var date := render(DateText(m)).value;
    EnvelopeOfFoldedSender(m, render, name, cont, addr);
    var line := EnvelopeLine(m, render).value;
    assert line == ("From " + name) + "\n" + (addr + " " + date);
    var r := AppendMessage(mbox, Some(m), render);
    assert r == Success(mbox + Block(line, m.text));
    assert r.value[|mbox|..] == Block(line, m.text);
    SplitBrokenBlock("From " + name, addr + " " + date, m.text);
  }
}

=== FILE: strings.dfy ===
/** Character searches the address substitution and the mbox reader are stated with. */
module Strings {
  import opened Wrappers

  /** Index of the first `c` in `s`, or `|s|` when `s` holds none (see `IndexOfFirst`). */
  function IndexOf(s: string, c: char): (k: nat)
    ensures k <= |s|
    ensures k < |s| ==> s[k] == c
  {
    if s == [] || s[0] == c then 0
    else 1 + IndexOf(s[1..], c)
  }

  /** No `c` comes before `IndexOf(s, c)`. */
  lemma {:induction false} IndexOfFirst(s: string, c: char)
    ensures forall j :: 0 <= j < IndexOf(s, c) ==> s[j] != c
    decreases |s|
  {
    if s != [] && s[0] != c {
      IndexOfFirst(s[1..], c);
      assert forall j :: 1 <= j < IndexOf(s, c) ==> s[j] == s[1..][j - 1];
    }
  }

  /** `IndexOf` is pinned down by one occurrence with none before it. */
  lemma IndexOfIs(s: string, c: char, k: nat)
    requires k < |s| && s[k] == c && c !in s[..k]
    ensures IndexOf(s, c) == k
  {
    IndexOfFirst(s, c);
    assert forall j :: 0 <= j < k ==> s[..k][j] == s[j];
  }

  /** `IndexOf` is `|s|` exactly when `s` holds no `c`. */
  lemma IndexOfAbsent(s: string, c: char)
    ensures IndexOf(s, c) == |s| <==> c !in s
  {
    IndexOfFirst(s, c);
  }

  /** Index of the last `c` in `s`, if any (see `LastIndexOfLast`). */
  function LastIndexOf(s: string, c: char): (r: Option<nat>)
    ensures r.Some? ==> r.value < |s| && s[r.value] == c
  {
    if s == [] then None
    else if s[|s| - 1] == c then Some(|s| - 1)
    else LastIndexOf(s[..|s| - 1], c)
  }

  /** `LastIndexOf` finds nothing only when there is nothing to find, and no `c` follows what it finds. */
  lemma {:induction false} LastIndexOfLast(s: string, c: char)
    ensures LastIndexOf(s, c).None? <==> c !in s
    ensures LastIndexOf(s, c).Some? ==> forall j :: LastIndexOf(s, c).value < j < |s| ==> s[j] != c
    decreases |s|
  {
    if s != [] && s[|s| - 1] != c {
      var t := s[..|s| - 1];
      LastIndexOfLast(t, c);
      assert forall j :: 0 <= j < |t| ==> t[j] == s[j];
      assert s == t + [s[|s| - 1]];
    }
  }

  /** `LastIndexOf` is pinned down by one occurrence with none after it. */
  lemma LastIndexOfIs(s: string, c: char, k: nat)
    requires k < |s| && s[k] == c && c !in s[k + 1..]
    ensures LastIndexOf(s, c) == Some(k)
  {
    LastIndexOfLast(s, c);
    assert forall j :: k < j < |s| ==> s[k + 1..][j - k - 1] == s[j];
  }
}

=== FILE: walker.dfy ===
/**
 * The `__main__` block of lkml-to-mbox.py: check the argument count, then
 * `count` times append the checked-out message to the mailbox and step the
 * checkout back one revision with `git checkout -q HEAD^`, stopping at the
 * first failure.
 *
 * The history is what the message file holds at each revision, counted from
 * the revision checked out at start: `hist[0]` is that revision, `hist[k]`
 * its k-th ancestor. Stepping back from the oldest revision fails, which is
 * the non-zero git exit status the program checks for.
 *
 * The loop is stated over any append step `append` (the block one message
 * file adds, or the fault it raises); the program uses `Mbox.Entry`.
 */
module Walker {
  import opened Wrappers
  import opened Envelope
  import opened Mbox

  /** The message file at each revision, newest first. */
  type History = seq<Option<Message>>

  /** One append: the block a message file adds to the mailbox, or the fault raised instead. */
  type Appender = Option<Message> -> Result<string, Fault>

  /** How a run ends. Every end but `Finished` is a non-zero exit. */
  datatype Halt =
    | Finished                                  // all `count` iterations done
    | Usage                                     // wrong argument count: usage text, exit 1
    | BadCount                                  // `int()` rejects the argument and raises
    | Raised(fault: Fault, iteration: nat)      // the append of that iteration raised
    | GitFailed(iteration: nat)                 // the step back of that iteration failed

  /** The observable end state: how it ended, the mailbox, and the checked-out revision. */
  datatype Run = Run(halt: Halt, mbox: string, cursor: nat)

  /** The process exit status of a run that ends this way: `sys.exit(1)` for
      usage, 1 for an uncaught exception, 0 when the loop runs out. */
  function ExitStatus(h: Halt): int
  {
    if h.Finished? then 0 else 1
  }

  /** `git checkout -q HEAD^`: the parent revision, or `None` (non-zero status) at the oldest one. */
  function StepBack(hist: History, cursor: nat): Option<nat>
  {
    if cursor + 1 < |hist| then Some(cursor + 1) else None
  }

  /** Every file in `files` can be appended. */
  predicate AllAppend(files: seq<Option<Message>>, append: Appender)
  {
    forall j :: 0 <= j < |files| ==> append(files[j]).Success?
  }

  /** The blocks of `files`, first to last. */
  function Blocks(files: seq<Option<Message>>, append: Appender): string
    requires AllAppend(files, append)
  {
    if files == [] then ""
    else append(files[0]).value + Blocks(files[1..], append)
  }

  /** Iterations `i` up to `count` of the loop, from checkout `cursor` and mailbox `mbox`. */
  function Walk(hist: History, cursor: nat, mbox: string, i: nat, count: int, append: Appender): (r: Run)
    requires cursor < |hist|
    ensures cursor <= r.cursor < |hist|
    ensures |mbox| <= |r.mbox| && r.mbox[..|mbox|] == mbox
    ensures r.halt.Finished? || r.halt.Raised? || r.halt.GitFailed?
    decreases count - i
  {
    if i >= count then Run(Finished, mbox, cursor)
    else match append(hist[cursor])
      case Failure(e) => Run(Raised(e, i), mbox, cursor)
      case Success(block) =>
        match StepBack(hist, cursor)
        case None => Run(GitFailed(i), mbox + block, cursor)
        case Some(parent) => Walk(hist, parent, mbox + block, i + 1, count, append)
  }

  /** The append step the program performs: `append_msg_to_mbox` on the checked-out message file. */
  function ProgramAppend(render: DateRenderer): Appender
  {
    file => Entry(file, render)
  }

  /** The whole program on argument vector `argv` (program name first), with
      `int()` as `parseCount` and the mailbox holding `mbox` beforehand. */
  function Invoke(argv: seq<string>, parseCount: string -> Option<int>, hist: History,
                  mbox: string, render: DateRenderer): (r: Run)
    requires |hist| > 0
    ensures r.halt.Usage? <==> |argv| != 2
    ensures |argv| != 2 ==> ExitStatus(r.halt) == 1 && r.mbox == mbox && r.cursor == 0
    ensures |mbox| <= |r.mbox| && r.mbox[..|mbox|] == mbox
  {
    if |argv| != 2 then Run(Usage, mbox, 0)
    else match parseCount(argv[1])
      case None => Run(BadCount, mbox, 0)
      case Some(count) => Walk(hist, 0, mbox, 0, count, ProgramAppend(render))
  }

  /** The program as written, with its `for` loop. */
  method Execute(argv: seq<string>, parseCount: string -> Option<int>, hist: History,
                 mbox: string, render: DateRenderer) returns (r: Run)
    requires |hist| > 0
    ensures r == Invoke(argv, parseCount, hist, mbox, render)
  {
    if |argv| != 2 {
      return Run(Usage, mbox, 0);
    }
    var parsed := parseCount(argv[1]);
    if parsed.None? {
      return Run(BadCount, mbox, 0);
    }
    var count := parsed.value;
    var append := ProgramAppend(render);
    var cursor: nat, out, i: nat := 0, mbox, 0;
    while i < count
      invariant cursor < |hist|
      invariant Walk(hist, cursor, out, i, count, append) == Walk(hist, 0, mbox, 0, count, append)
      decreases count - i
    {
      var appended := AppendMessage(out, hist[cursor], render);
      if appended.Failure? {
        return Run(Raised(appended.error, i), out, cursor);
      }
      out := appended.value;
      var parent := StepBack(hist, cursor);
      if parent.None? {
        return Run(GitFailed(i), out, cursor);
      }
      cursor := parent.value;
      i := i + 1;
    }
    r := Run(Finished, out, cursor);
  }

  /** `out` is `before` followed by the blocks of the `n` revisions from `cursor` on, in history order. */
  ghost predicate AppendedFrom(hist: History, cursor: nat, n: nat, append: Appender, before: string, out: string)
  {
    && cursor + n <= |hist|
    && AllAppend(hist[cursor..cursor + n], append)
    && out == before + Blocks(hist[cursor..cursor + n], append)
  }

  /** Appending one more revision in front of a run of appended revisions. */
  lemma AppendedFromStep(hist: History, cursor: nat, n: nat, append: Appender,
                         before: string, out: string)
    requires cursor < |hist| && append(hist[cursor]).Success?
    requires AppendedFrom(hist, cursor + 1, n, append, before + append(hist[cursor]).value, out)
    ensures AppendedFrom(hist, cursor, n + 1, append, before, out)
  {
    var visited := hist[cursor..cursor + n + 1];
    var later := hist[cursor + 1..cursor + 1 + n];
    assert visited[0] == hist[cursor];
    assert visited[1..] == later;
    var e := append(hist[cursor]).value;
    var b := Blocks(later, append);
    assert Blocks(visited, append) == e + b;
    assert out == before + (e + b);
  }

  /** A run that finishes has appended, in history order, the blocks of the
      `count - i` revisions it visited, and stands that many revisions back. */
  lemma {:induction false} WalkFinished(hist: History, cursor: nat, mbox: string, i: nat, count: int, append: Appender)
    requires cursor < |hist|
    ensures var r := Walk(hist, cursor, mbox, i, count, append);
            r.halt.Finished? ==>
              var n := if count <= i then 0 else count - i;
              r.cursor == cursor + n && AppendedFrom(hist, cursor, n, append, mbox, r.mbox)
    decreases count - i
  {
    if i < count && append(hist[cursor]).Success? && StepBack(hist, cursor).Some? {
      var block := append(hist[cursor]).value;
      WalkFinished(hist, cursor + 1, mbox + block, i + 1, count, append);
      var rest := Walk(hist, cursor + 1, mbox + block, i + 1, count, append);
      if rest.halt.Finished? {
        AppendedFromStep(hist, cursor, count - i - 1, append, mbox, rest.mbox);
      }
    } else {
      assert hist[cursor..cursor] == [];
    }
  }

  /** A run stopped by an append that raises has appended, in history order,
      the blocks of the revisions before the failing one, and no more. */
  lemma {:induction false} WalkRaised(hist: History, cursor: nat, mbox: string, i: nat, count: int, append: Appender)
    requires cursor < |hist|
    ensures var r := Walk(hist, cursor, mbox, i, count, append);
            r.halt.Raised? ==>
              && i <= r.halt.iteration < count
              && r.cursor == cursor + (r.halt.iteration - i)
              && AppendedFrom(hist, cursor, r.halt.iteration - i, append, mbox, r.mbox)
              && append(hist[r.cursor]) == Failure(r.halt.fault)
    decreases count - i
  {
    if i < count && append(hist[cursor]).Success? && StepBack(hist, cursor).Some? {
      var block := append(hist[cursor]).value;
      WalkRaised(hist, cursor + 1, mbox + block, i + 1, count, append);
      var rest := Walk(hist, cursor + 1, mbox + block, i + 1, count, append);
      if rest.halt.Raised? {
        AppendedFromStep(hist, cursor, rest.halt.iteration - i - 1, append, mbox, rest.mbox);
      }
    } else {
      assert hist[cursor..cursor] == [];
    }
  }

  /** A run stopped by a failed step back has reached the oldest revision and
      appended, in history order, the blocks of every revision from its start
      to that one, the oldest included. */
  lemma {:induction false} WalkGitFailed(hist: History, cursor: nat, mbox: string, i: nat, count: int, append: Appender)
    requires cursor < |hist|
    ensures var r := Walk(hist, cursor, mbox, i, count, append);
            r.halt.GitFailed? ==>
              && i <= r.halt.iteration < count
              && r.cursor == |hist| - 1 == cursor + (r.halt.iteration - i)
              && AppendedFrom(hist, cursor, |hist| - cursor, append, mbox, r.mbox)
    decreases count - i
  {
    if i < count && append(hist[cursor]).Success? {
      var block := append(hist[cursor]).value;
      if StepBack(hist, cursor).None? {
        assert AppendedFrom(hist, cursor + 1, 0, append, mbox + block, mbox + block) by {
          assert hist[cursor + 1..cursor + 1] == [];
        }
        AppendedFromStep(hist, cursor, 0, append, mbox, mbox + block);
      } else {
        WalkGitFailed(hist, cursor + 1, mbox + block, i + 1, count, append);
        var rest := Walk(hist, cursor + 1, mbox + block, i + 1, count, append);
        if rest.halt.GitFailed? {
          AppendedFromStep(hist, cursor, |hist| - cursor - 1, append, mbox, rest.mbox);
        }
      }
    }
  }

  /** The blocks of a run of revisions are the first one's block followed by the rest's. */
  lemma BlocksFront(hist: History, cursor: nat, n: nat, append: Appender)
    requires cursor + n < |hist| && AllAppend(hist[cursor..cursor + n + 1], append)
    ensures append(hist[cursor]).Success?
    ensures AllAppend(hist[cursor + 1..cursor + 1 + n], append)
    ensures Blocks(hist[cursor..cursor + n + 1], append)
            == append(hist[cursor]).value + Blocks(hist[cursor + 1..cursor + 1 + n], append)
  {
    var visited := hist[cursor..cursor + n + 1];
    assert visited[0] == hist[cursor];
    assert visited[1..] == hist[cursor + 1..cursor + 1 + n];
  }

  /** Conversely, when the next `count - i` revisions all append and an older
      revision exists to step back to after each, the run finishes with
      exactly their blocks, in history order. */
  lemma {:induction false} WalkCompletes(hist: History, cursor: nat, mbox: string, i: nat, count: int, append: Appender)
    requires cursor < |hist|
    requires var n := if count <= i then 0 else count - i;
             cursor + n < |hist| && AllAppend(hist[cursor..cursor + n], append)
    ensures var n := if count <= i then 0 else count - i;
            Walk(hist, cursor, mbox, i, count, append)
              == Run(Finished, mbox + Blocks(hist[cursor..cursor + n], append), cursor + n)
    decreases count - i
  {
    if count <= i {
      assert hist[cursor..cursor] == [];
    } else {
      var n := count - i;
      BlocksFront(hist, cursor, n - 1, append);
      var block := append(hist[cursor]).value;
      WalkCompletes(hist, cursor + 1, mbox + block, i + 1, count, append);
      var rest := Blocks(hist[cursor + 1..cursor + 1 + (n - 1)], append);
      assert mbox + block + rest == mbox + (block + rest);
    }
  }

  /** When every revision from `cursor` to the oldest appends but the loop
      wants more, the step back from the oldest fails after its block is written. */
  lemma {:induction false} WalkExhausts(hist: History, cursor: nat, mbox: string, i: nat, count: int, append: Appender)
    requires cursor < |hist| && |hist| - cursor <= count - i
    requires AllAppend(hist[cursor..], append)
    ensures Walk(hist, cursor, mbox, i, count, append)
            == Run(GitFailed(i + (|hist| - 1 - cursor)), mbox + Blocks(hist[cursor..], append), |hist| - 1)
    decreases |hist| - cursor
  {
    var n := |hist| - 1 - cursor;
    assert hist[cursor..cursor + n + 1] == hist[cursor..];
    BlocksFront(hist, cursor, n, append);
    var block := append(hist[cursor]).value;
    var later := hist[cursor + 1..cursor + 1 + n];
    if n == 0 {
      assert later == [];
    } else {
      assert later == hist[cursor + 1..];
      WalkExhausts(hist, cursor + 1, mbox + block, i + 1, count, append);
      assert mbox + block + Blocks(later, append) == mbox + (block + Blocks(later, append));
    }
  }

  /** `WalkExhausts` for a whole run, from the starting checkout. */
  lemma WalkExhaustsHistory(hist: History, mbox: string, count: int, append: Appender)
    requires 0 < |hist| <= count && AllAppend(hist, append)
    ensures Walk(hist, 0, mbox, 0, count, append) == Run(GitFailed(|hist| - 1), mbox + Blocks(hist, append), |hist| - 1)
  {
    assert hist[0..] == hist;
    WalkExhausts(hist, 0, mbox, 0, count, append);
  }

  /** When the revision `k` steps back is the first whose append raises, and
      the loop gets that far, the run stops there with the blocks of the `k`
      revisions before it. */
  lemma {:induction false} WalkStopsAtFault(hist: History, cursor: nat, mbox: string, i: nat, count: int,
                                            append: Appender, k: nat)
    requires cursor + k < |hist| && i + k < count
    requires AllAppend(hist[cursor..cursor + k], append) && append(hist[cursor + k]).Failure?
    ensures Walk(hist, cursor, mbox, i, count, append)
            == Run(Raised(append(hist[cursor + k]).error, i + k),
                   mbox + Blocks(hist[cursor..cursor + k], append), cursor + k)
    decreases k
  {
    if k == 0 {
      assert hist[cursor..cursor] == [];
    } else {
      BlocksFront(hist, cursor, k - 1, append);
      var block := append(hist[cursor]).value;
      WalkStopsAtFault(hist, cursor + 1, mbox + block, i + 1, count, append, k - 1);
      var rest := Blocks(hist[cursor + 1..cursor + 1 + (k - 1)], append);
      assert mbox + block + rest == mbox + (block + rest);
    }
  }

  /** The program's append succeeds exactly on the files `Mbox.Appendable` admits. */
  lemma ProgramAppendSucceeds(files: seq<Option<Message>>, render: DateRenderer)
    ensures AllAppend(files, ProgramAppend(render))
            <==> forall j :: 0 <= j < |files| ==> Appendable(files[j], render)
  {
    assert forall j :: 0 <= j < |files| ==>
      (ProgramAppend(render)(files[j]).Success? <==> Appendable(files[j], render));
  }

  /** With two arguments and a count that parses, the program is the loop over its append step. */
  lemma InvokeWalks(argv: seq<string>, parseCount: string -> Option<int>, hist: History,
                    mbox: string, render: DateRenderer, count: int)
    requires |hist| > 0 && |argv| == 2 && parseCount(argv[1]) == Some(count)
    ensures Invoke(argv, parseCount, hist, mbox, render) == Walk(hist, 0, mbox, 0, count, ProgramAppend(render))
  {
  }

  /** A count argument that `int()` rejects raises before the loop: exit 1,
      with the mailbox and the checkout as they were. */
  lemma InvokeBadCount(argv: seq<string>, parseCount: string -> Option<int>, hist: History,
                       mbox: string, render: DateRenderer)
    requires |hist| > 0 && |argv| == 2 && parseCount(argv[1]).None?
    ensures Invoke(argv, parseCount, hist, mbox, render) == Run(BadCount, mbox, 0)
    ensures ExitStatus(Invoke(argv, parseCount, hist, mbox, render).halt) == 1
  {
  }

  /** A count that parses and stays within the history, over messages that all
      append, exits 0 with one block per iteration, newest revision first; a
      count of zero or less does nothing. */
  lemma InvokeCompletes(argv: seq<string>, parseCount: string -> Option<int>, hist: History,
                        mbox: string, render: DateRenderer, count: int)
    requires |hist| > 0 && |argv| == 2 && parseCount(argv[1]) == Some(count)
    requires var n := if count <= 0 then 0 else count;
             n < |hist| && forall j :: 0 <= j < n ==> Appendable(hist[j], render)
    ensures var n := if count <= 0 then 0 else count;
            var r := Invoke(argv, parseCount, hist, mbox, render);
            && r == Run(Finished, mbox + Blocks(hist[..n], ProgramAppend(render)), n)
            && ExitStatus(r.halt) == 0
            && (count <= 0 ==> r == Run(Finished, mbox, 0))
  {
    var n := if count <= 0 then 0 else count;
    assert hist[0..0 + n] == hist[..n];
    var append := ProgramAppend(render);
    InvokeWalks(argv, parseCount, hist, mbox, render, count);
    ProgramAppendSucceeds(hist[..n], render);
    WalkCompletes(hist, 0, mbox, 0, count, append);
    assert n == 0 ==> hist[..n] == [];
  }

  /** A count that reaches past the oldest revision, over messages that all
      append, writes every revision's block and then exits 1 when git cannot
      step back from the oldest: iteration `i` fails leaving `i + 1` blocks. */
  lemma InvokeRunsOutOfHistory(argv: seq<string>, parseCount: string -> Option<int>, hist: History,
                               mbox: string, render: DateRenderer, count: int)
    requires |hist| > 0 && |argv| == 2 && parseCount(argv[1]) == Some(count)
    requires |hist| <= count && forall j :: 0 <= j < |hist| ==> Appendable(hist[j], render)
    ensures var r := Invoke(argv, parseCount, hist, mbox, render);
            && r == Run(GitFailed(|hist| - 1), mbox + Blocks(hist, ProgramAppend(render)), |hist| - 1)
            && ExitStatus(r.halt) == 1
  {
    InvokeWalks(argv, parseCount, hist, mbox, render, count);
    ProgramAppendSucceeds(hist, render);
    WalkExhaustsHistory(hist, mbox, count, ProgramAppend(render));
  }
}

=== FILE: wrappers.dfy ===
/** The optional value and the success-or-error outcome shared by the other modules. */
module Wrappers {

  /** A value that may be absent: a missing header, a failed search. */
  datatype Option<+T> = None | Some(value: T)

  /** The outcome of a step that can raise: its value, or the error it raised. */
  datatype Result<+R, +E> = Success(value: R) | Failure(error: E)
}
